=== FILE: README.md ===
# Tag state of the rustle template parser, in Dafny

This project models the tag state of rustle's Svelte template parser
(`rustle/src/compiler/parse/state/tag.rs`). The parser calls this state once
per `<`-prefixed construct. The file is only partly written: `tag` stops at a
`todo!()` after the meta-tag check, and `read_tag_name` is a `todo!()`. The
model covers what is written:

- `VALID_TAG_NAME`, the tag-name pattern `^!?[a-zA-Z]{1,}:?[a-zA-Z0-9-]*`.
  It is modelled as a declarative language (`TagName.InLanguage`) and as a
  greedy scanner (`TagName.MatchLength`). The scanner is proved to return the
  longest tag-name prefix.
- The four component markers `SELF`, `COMPONENT`, `SLOT` and `ELEMENT`, and
  the names table `VALID_META_TAGS`. Each marker pattern consumes its name and
  one boundary character (`\s`, `/` or `>`). Because the `regex` crate has no
  lookahead, the doc comments at `tag.rs` lines 23-24 require the caller to
  step back one character; `Markers.ReadMarker` models that contract (the
  caller, `read_tag_name`, is not written yet).
- `META_TAGS`, the table from the four meta-tag names to their node types,
  and the slugs derived from it.
- `parent_is_head`, as a loop over the open-element stack.
- The comment branch of `tag`. It reads up to the first `-->`, requires that
  terminator, and appends one `Comment` leaf to the current node.
- The meta-tag branch of `tag`. It records content, duplicate and placement
  errors on closing meta tags.
- `tag` itself up to its unwritten remainder (`Tag.TagStep`).

The parser is an immutable value (`ParserState.Parser`). It holds the source,
the cursor, the stack of open nodes, the set of meta tags seen, and the list
of diagnostics. Each step is a pure function from one parser value to a
`Tag.TagResult`, which is one of:

- a fatal error;
- a return to the dispatcher;
- arrival at the unwritten part of `tag`.

Two collaborators that are not visible become parameters of `Tag.TagStep`.
The first is the ignore-directive extractor `extract_svelte_ignore`. The
second is the tag-name reader, which is not written yet.

Modules: `Wrappers` (Option), `Text` (character classes and scanning),
`TagName`, `Markers`, `Ast` (nodes and diagnostics), `ParserState` (the
parser and its cursor primitives), `Tag` (the state itself).

### What the meta-tag and comment branches do, as written

- The duplicate and placement checks sit in the `else` of the window/body
  content check (lines 99-125). A closing tag therefore gets either the
  content error or the other two checks, never both.
- All three checks sit inside the `is_closing_tag` branch. An opening or
  self-closing meta tag is never checked.
- Placement is tested as `stack.len() > 1` at the closing tag (line 118).
- The name is inserted into `meta_tags` in every case that reaches the `else`
  (line 123), whether or not an error was recorded.
- A comment's end is the cursor after eating `-->` (lines 70-72). Its start is
  the cursor at entry plus one (line 65).

Svelte's own `tag.ts`, which this file ports, attaches that `else` to
`if is_closing_tag` instead. That is recorded under "## Findings" below.
`Tag.TagStep` keeps the check as written, and `Tag.MetaCheckCorrected`
states the intended check beside it.

## Model

| member | source | states |
|---|---|---|
| `TagName.MatchLength` | rustle/src/compiler/parse/state/tag.rs:15 | the pattern matches exactly when the input starts with an ASCII letter or with `!` and a letter; the match is non-empty, within the input, a tag name in full, and is followed by no `[a-zA-Z0-9-]` character |
| `TagName.MatchLengthIsLongest` | rustle/src/compiler/parse/state/tag.rs:15 | every prefix that is a tag name makes the pattern match and is no longer than the greedy match, so the greedy match is the longest tag-name prefix |
| `TagName.IsMatchIffStartsTagName` | rustle/src/compiler/parse/state/tag.rs:15 | `is_match` (some prefix is a tag name) holds exactly when the input starts with a letter or with `!` and a letter |
| `TagName.WholeNameMatchesInFull` | rustle/src/compiler/parse/state/tag.rs:15 | a string that is a tag name from end to end is matched in full |
| `TagName.SampleNamesAreTagNames` | rustle/src/compiler/parse/state/tag.rs:142-156 | `svelte:options`, `svelte:component` and `svelte:my-element` are tag names |
| `TagName.SampleDashedNamesAreTagNames` | rustle/src/compiler/parse/state/tag.rs:142-156 | `my-element` and `element-multiple-dashes` are tag names |
| `TagName.SampleBangNamesAreTagNames` | rustle/src/compiler/parse/state/tag.rs:142-156 | `!svelte:element` and `!svelte:multiple-dashes-element` are tag names |
| `Markers.MatchWithBoundary` | rustle/src/compiler/parse/state/tag.rs:25-37 | a marker pattern matches exactly when the input starts with the marker name followed by a whitespace, `/` or `>` character, and the match is one character longer than the name |
| `Markers.ReadMarker` | rustle/src/compiler/parse/state/tag.rs:23-37 | after matching a marker and giving back its boundary character, the cursor has moved by the name's length alone and the boundary character is the next input; it succeeds exactly when the name and a boundary character follow the cursor |
| `Markers.MarkersAreExclusive` | rustle/src/compiler/parse/state/tag.rs:25-45 | no input matches two different marker patterns |
| `Markers.EighthCharacterDistinguishes` | rustle/src/compiler/parse/state/tag.rs:40-45 | the marker names differ in the character after `svelte:` |
| `Markers.BoundarySamplesMatch` | rustle/src/compiler/parse/state/tag.rs:159-200 | every marker name followed by a space, `/` or `>` matches its pattern |
| `Markers.PrefixedNamesDoNotMatch` | rustle/src/compiler/parse/state/tag.rs:25 | `svelte:selfish` and a bare `svelte:self` do not match `SELF` |
| `Markers.MarkerNamesAreTagNames` | rustle/src/compiler/parse/state/tag.rs:15-45 | every name in `VALID_META_TAGS` is matched in full by `VALID_TAG_NAME` |
| `Text.FindFrom` | rustle/src/compiler/parse/state/tag.rs:69 | the search for `-->` finds its first occurrence at or after the cursor, or the end of input when there is none |
| `ParserState.Eat` | rustle/src/compiler/parse/state/tag.rs:68 | `eat` succeeds exactly when the literal follows the cursor, and then moves the cursor past it; otherwise nothing changes |
| `ParserState.ReadUntil` | rustle/src/compiler/parse/state/tag.rs:69 | `read_until` returns the text from the cursor to the first occurrence of the pattern, or to the end, and leaves the cursor there |
| `Tag.SlugIsUnprefixedName` | rustle/src/compiler/parse/state/tag.rs:16-21 | each meta-tag name is `svelte:` followed by its slug, the lower-cased node type (`head`, `options`, `window`, `body`) |
| `Tag.ParentIsHead` | rustle/src/compiler/parse/state/tag.rs:47-62 | the answer is true exactly when some `Head` on the stack has no `Element` or `InlineComponent` above it; an empty stack or a stack with no head answers false |
| `Tag.MetaClose` | rustle/src/compiler/parse/state/tag.rs:97-126 | opening tags and non-meta names change nothing. A closing window/body with children records one content error at the first child's start and nothing else. Any other closing meta tag appends a duplicate error if the name was seen, then a placement error if the stack holds more than the root, in that order, and remembers the name |
| `Tag.SecondCloseIsDuplicate` | rustle/src/compiler/parse/state/tag.rs:113-123 | closing a meta tag twice with only the root on the stack: the first close records nothing and remembers the name, the second records exactly one duplicate error at its own start. This isolates the duplicate test from the placement test; a real parse never closes a meta tag with only the root open |
| `Tag.TagStep` | rustle/src/compiler/parse/state/tag.rs:64-127 | `tag` runs the comment branch exactly when `!--` follows the cursor, and otherwise reaches the unwritten remainder with start one past the cursor, the closing flag set exactly on a `/`, the name the reader returns and the stack untouched; the parser it hands on is the meta-tag check (`Tag.MetaClose`) applied to the parser with the cursor after the name. An abort is an unclosed-comment error at the end of input. A return has no next state and keeps the stack depth, the diagnostics and the seen set |
| `Tag.CommentStep` | rustle/src/compiler/parse/state/tag.rs:68-91 | the comment branch aborts exactly when no `-->` follows the cursor. Otherwise the cursor ends just past a `-->`, and the only change is one `Comment` child appended to the current node |
| `Tag.CommentAppendsOneLeaf` | rustle/src/compiler/parse/state/tag.rs:64-92 | a terminated comment appends exactly one `Comment` to the current node, whose other fields are unchanged. Its text runs up to the first `-->`, it starts at the entry cursor plus one and ends after `-->`, and the step returns no next state. The rest of the stack, the seen set and the diagnostics are unchanged |
| `Tag.CommentStepAppends` | rustle/src/compiler/parse/state/tag.rs:69-91 | once `!--` is eaten, the comment branch returns the parser with the comment leaf appended and the cursor after the first `-->` |
| `Tag.ReadUntilStopsAt` | rustle/src/compiler/parse/state/tag.rs:69 | reading until `-->` stops at its first occurrence |
| `Tag.UnclosedCommentAborts` | rustle/src/compiler/parse/state/tag.rs:68-70 | an opened comment with no `-->` after it aborts with an unclosed-comment error, and no comment is appended |
| `Tag.OtherTagsReachRemainder` | rustle/src/compiler/parse/state/tag.rs:64-95 | anything but `!--` reaches the rest of the state with start one past the cursor; it is a closing tag exactly when `/` follows the cursor, and the stack is untouched |
| `Tag.TagStepKeepsParserShape` | rustle/src/compiler/parse/state/tag.rs:64-126 | a step that does not abort keeps the stack depth, the nodes below the top and the top's type; it never drops a diagnostic or a seen name, and adds at most two diagnostics |
| `Tag.MetaCloseKeepsShape` | rustle/src/compiler/parse/state/tag.rs:97-126 | the meta-tag check leaves the template, cursor and stack alone, keeps every diagnostic and seen name, and adds at most two diagnostics |
| `Tag.CommentStepKeepsShape` | rustle/src/compiler/parse/state/tag.rs:68-91 | a returning comment branch keeps the template, the stack depth, the nodes below the top and the top's type, the diagnostics and the seen set |
| `Tag.ClosingTopLevelHeadIsReportedMisplaced` | rustle/src/compiler/parse/state/tag.rs:94-121 | as written, `</svelte:head>` read by `tag` while a head element sits directly under the root records a placement error at the closing tag's start |
| `Tag.TopLevelCloseIsReportedMisplaced` | rustle/src/compiler/parse/state/tag.rs:118-121 | as written, closing a childless meta element that sits directly under the root, and so is still open on a two-entry stack, records a placement error |
| `Tag.MetaCheckCorrected` | rustle/src/compiler/parse/state/tag.rs:97-126 | the corrected check: a closing tag only gets the window/body content check and leaves the seen set alone. An opening meta tag appends a duplicate error if the name was seen, then a placement error if the stack holds more than the root, and marks the name seen |
| `Tag.CorrectedTopLevelMetaTagIsAccepted` | rustle/src/compiler/parse/state/tag.rs:113-123 | with the corrected check, a first meta element opened under the root, pushed and closed empty records no error, and opening it again records exactly one duplicate |
| `Tag.CorrectedCheckSeesSelfClosingTags` | rustle/src/compiler/parse/state/tag.rs:99-121 | a nested opening meta tag is reported as misplaced by the corrected check, and passes the as-written check unrecorded |

## Left out

- The rest of `tag` after line 127 and the body of `read_tag_name` (line 134) are `todo!()`. `Tag.TagStep` stops there with a `Pending` result. The model invents no opening-tag construction, pushing or popping, self-closing detection, element/component classification or unmatched-closing-tag handling.
- The tag-name reader is a parameter of `Tag.TagStep`, because the source does not implement it yet.
- `extract_svelte_ignore` is not part of this model. It is an uninterpreted parameter from the comment text to the ignore list.
- `Parser` (its `eat`, `read_until`, `current` and `error`) is not part of this model. The model uses these semantics:
  - `eat` consumes a literal when it follows the cursor.
  - `read_until` consumes up to the first match, or to the end of input.
  - `current` is the top of the stack, and `tag` needs a non-empty stack to call it (line 66).
  - `error` appends a diagnostic and parsing continues.
- A check at end of input inside `read_until`, if the parser has one, is not modelled. A comment opened with no `-->` after it aborts with an unclosed-comment error positioned at the cursor, which is the end of input.
- Error codes and message text are not modelled. A diagnostic keeps its kind, the slug and the name the message is built from, and its position.
- Offsets count characters, not UTF-8 bytes.
- The `regex` crate, `lazy_static` and `HashMap` are not modelled. The patterns are explicit predicates, `META_TAGS` is a constant map, and the `meta_tags: HashMap<String, bool>` registry is the set of names inserted into it.
- `to_lowercase` is modelled as ASCII lower-casing, which agrees with it on the four ASCII node-type names it is applied to.
- The `prop_name` map and the `expression` of a node are not modelled. Neither is read or set beyond its empty default in this file.
- The `s.ends_with("/>")` calls in the tests have no effect and are not modelled.

## Findings

| source | as written | input that shows it | evidently intended | confidence | as-written member | corrected member |
|---|---|---|---|---|---|---|
| rustle/src/compiler/parse/state/tag.rs:99-125 | the duplicate and placement checks run in the `else` of the window/body content check, so only on closing tags, and test `stack.len() > 1` while the closed element is still on the stack | `<svelte:head></svelte:head>` directly under the root: at the closing tag the stack is the root and the head element, so a placement error is recorded. `<div><svelte:options/></div>` records none | as in Svelte's `tag.ts`, the `else` belongs to `if is_closing_tag`: content is checked on closing tags, duplicates and placement on opening tags before the push | medium, not executed (the push of opened elements is in the unwritten part of `tag`) | `Tag.ClosingTopLevelHeadIsReportedMisplaced` | `Tag.MetaCheckCorrected` |

=== FILE: ast.dfy ===
/** The template tree and the diagnostics the tag state produces. */
module Ast {
  import opened Wrappers

  /** The fields every template node carries. Offsets are unset until known;
      `nodeType` is the name the parser compares against ("Head", "Element",
      "Comment", ...). The property map and bound expression are not
      modelled. */
  datatype BaseNode = BaseNode(
    start: Option<nat>,
    end: Option<nat>,
    nodeType: string,
    children: seq<TemplateNode>,
    elseIf: bool,
    isElse: bool)

  /** A comment leaf keeps its raw text and the ignore directives found in it;
      every other kind of node is told apart only by `base.nodeType`. */
  datatype TemplateNode =
    | Comment(base: BaseNode, data: string, ignores: seq<string>)
    | Generic(base: BaseNode)

  function TypeOf(n: TemplateNode): string {
    n.base.nodeType
  }

  function Children(n: TemplateNode): seq<TemplateNode> {
    n.base.children
  }

  /** `n` with `child` appended to its children, everything else kept. */
  function AddChild(n: TemplateNode, child: TemplateNode): (r: TemplateNode)
    ensures Children(r) == Children(n) + [child]
    ensures TypeOf(r) == TypeOf(n) && r.base.start == n.base.start && r.base.end == n.base.end
    ensures r.Comment? == n.Comment?
  {
    n.(base := n.base.(children := n.base.children + [child]))
  }

  /** The error kinds raised by the modelled part of the tag state; the slug
      and the tag name are what the message is built from. */
  datatype ErrorKind =
    | UnclosedComment
    | InvalidElementContent(slug: string, name: string)
    | DuplicateElement(slug: string, name: string)
    | InvalidElementPlacement(slug: string, name: string)

  datatype Diagnostic = Diagnostic(kind: ErrorKind, position: Option<nat>)
}

=== FILE: markers.dfy ===
/** The four component markers (`SELF`, `COMPONENT`, `SLOT`, `ELEMENT`) and
    the names table `VALID_META_TAGS`. Each marker pattern is anchored and
    must be followed by one boundary character; the `regex` crate has no
    lookahead, so the pattern consumes that character and the caller gives
    it back. */
module Markers {
  import opened Wrappers
  import opened Text
  import opened ParserState
  import TagName

  datatype Marker = SelfMarker | ComponentMarker | FragmentMarker | ElementMarker
  {
    /** The marker's position in `ValidMetaTags`. */
    function Index(): nat {
      match this
      case SelfMarker => 0
      case ComponentMarker => 1
      case FragmentMarker => 2
      case ElementMarker => 3
    }
  }

  /** `VALID_META_TAGS`: the marker names, in pattern order. */
  const ValidMetaTags: seq<string> :=
    ["svelte:self", "svelte:component", "svelte:fragment", "svelte:element"]

  /** The literal a marker pattern starts with. */
  function Literal(m: Marker): string {
    ValidMetaTags[m.Index()]
  }

  /** `[\s/>]`: the character that must follow a marker name. */
  predicate IsBoundary(c: char) {
    IsWhiteSpace(c) || c == '/' || c == '>'
  }

  /** The length of the match of `^<literal>([\s/>])` at the start of `s`. */
  function MatchWithBoundary(s: string, m: Marker): (r: Option<nat>)
    ensures r.Some? <==>
              |s| > |Literal(m)| && s[..|Literal(m)|] == Literal(m) && IsBoundary(s[|Literal(m)|])
    ensures r.Some? ==> r.value == |Literal(m)| + 1
  {
    var lit := Literal(m);
    if StartsWith(s, lit) && |s| > |lit| && IsBoundary(s[|lit|]) then Some(|lit| + 1) else None
  }

  /** Step the cursor back over the one character just consumed. */
  function Unconsume(p: Parser): (q: Parser)
    requires p.index > 0
    ensures q.index + 1 == p.index && q.(index := p.index) == p
  {
    p.(index := p.index - 1)
  }

  /** Match a marker at the cursor, then give back the boundary character:
      on success the cursor has moved past the name alone and the boundary
      character is the next input. */
  function ReadMarker(p: Parser, m: Marker): (r: Option<Parser>)
    requires p.index <= |p.template|
    ensures r.Some? <==>
              && p.index + |Literal(m)| < |p.template|
              && p.template[p.index..p.index + |Literal(m)|] == Literal(m)
              && IsBoundary(p.template[p.index + |Literal(m)|])
    ensures r.Some? ==>
              && r.value == p.(index := p.index + |Literal(m)|)
              && r.value.index < |r.value.template|
              && IsBoundary(r.value.template[r.value.index])
  {
    match MatchWithBoundary(Rest(p), m)
    case None => None
    case Some(n) =>
      var q := p.(index := p.index + n);
      Some(Unconsume(q))
  }

  /** At most one marker matches any input, so the order in which the
      patterns are tried cannot change which one is found. */
  lemma MarkersAreExclusive(s: string, m1: Marker, m2: Marker)
    ensures MatchWithBoundary(s, m1).Some? && MatchWithBoundary(s, m2).Some? ==> m1 == m2
  {
    if MatchWithBoundary(s, m1).Some? && MatchWithBoundary(s, m2).Some? {
      EighthCharacterOfMatch(s, m1);
      EighthCharacterOfMatch(s, m2);
      EighthCharacterDistinguishes(m1, m2);
    }
  }

  lemma EighthCharacterOfMatch(s: string, m: Marker)
    requires MatchWithBoundary(s, m).Some?
    ensures |s| > 7 && |Literal(m)| > 7 && s[7] == Literal(m)[7]
  {
  }

  /** All four names share the prefix "svelte:" and differ right after it. */
  lemma EighthCharacterDistinguishes(m1: Marker, m2: Marker)
    requires |Literal(m1)| > 7 && |Literal(m2)| > 7 && Literal(m1)[7] == Literal(m2)[7]
    ensures m1 == m2
  {
  }

  /** The parser's own samples: each marker followed by a space, `/` or `>`
      matches, consuming one character more than its name. */
  lemma BoundarySamplesMatch(m: Marker)
    ensures MatchWithBoundary(Literal(m) + " ", m) == Some(|Literal(m)| + 1)
    ensures MatchWithBoundary(Literal(m) + "/", m) == Some(|Literal(m)| + 1)
    ensures MatchWithBoundary(Literal(m) + ">", m) == Some(|Literal(m)| + 1)
  {
    var lit := Literal(m);
    assert (lit + " ")[..|lit|] == lit;
    assert (lit + "/")[..|lit|] == lit;
    assert (lit + ">")[..|lit|] == lit;
  }

  /** A longer name sharing the prefix, or the bare name at the end of input,
      is not the marker. */
  lemma PrefixedNamesDoNotMatch()
    ensures MatchWithBoundary("svelte:selfish", SelfMarker).None?
    ensures MatchWithBoundary("svelte:self", SelfMarker).None?
  {
    var lit := Literal(SelfMarker);
    assert |lit| == 11;
    assert "svelte:selfish"[11] == 'i' && !IsBoundary('i');
  }

  /** Every marker name is, in full, a name `VALID_TAG_NAME` accepts. */
  lemma MarkerNamesAreTagNames(m: Marker)
    ensures TagName.MatchLength(Literal(m)) == Some(|Literal(m)|)
  {
    var lit := Literal(m);
    assert TagName.Split(lit, 0, 6, 7);
    TagName.WholeNameMatchesInFull(lit);
  }
}

=== FILE: parser_state.dfy ===
/** The parser the tag state works on, and the cursor primitives it uses:
    `eat`, `read_until`, `current` and `error`. */
module ParserState {
  import opened Wrappers
  import opened Text
  import opened Ast

  /** The transition signal handed back to the outer dispatcher; the
      modelled branches only ever return "no explicit next state". */
  datatype StateReturn = NoNextState

  /** One parse in progress: the source, the cursor, the stack of open nodes
      (root first, current parent last), the meta tags closed so far and the
      recorded diagnostics. */
  datatype Parser = Parser(
    template: string,
    index: nat,
    stack: seq<TemplateNode>,
    metaTags: set<string>,
    errors: seq<Diagnostic>)

  /** The cursor is inside the source and the root is on the stack. */
  predicate Valid(p: Parser) {
    p.index <= |p.template| && |p.stack| > 0
  }

  /** The input from the cursor on. */
  function Rest(p: Parser): string
    requires p.index <= |p.template|
  {
    p.template[p.index..]
  }

  /** The current parent: the top of the stack. */
  function Current(p: Parser): TemplateNode
    requires |p.stack| > 0
  {
    p.stack[|p.stack| - 1]
  }

  /** `eat(lit, false, None)`: consume `lit` if the input continues with it. */
  function Eat(p: Parser, lit: string): (r: (bool, Parser))
    requires p.index <= |p.template|
    ensures r.0 <==> p.index + |lit| <= |p.template| && p.template[p.index..p.index + |lit|] == lit
    ensures r.1 == if r.0 then p.(index := p.index + |lit|) else p
  {
    if StartsWith(Rest(p), lit) then (true, p.(index := p.index + |lit|)) else (false, p)
  }

  /** `read_until(pat)`: consume and return the text up to the first occurrence
      of `pat`, or the whole remaining input when there is none. */
  function ReadUntil(p: Parser, pat: string): (r: (string, Parser))
    requires p.index <= |p.template|
    requires |pat| > 0
    ensures var j := r.1.index;
      && p.index <= j <= |p.template|
      && r.0 == p.template[p.index..j]
      && r.1 == p.(index := j)
      && (forall k :: p.index <= k < j ==> !StartsWith(p.template[k..], pat))
      && (j < |p.template| ==> StartsWith(p.template[j..], pat))
  {
    var j := FindFrom(p.template, p.index, pat);
    (p.template[p.index..j], p.(index := j))
  }

  /** `current().get_children().push(child)`. */
  function AppendToCurrent(p: Parser, child: TemplateNode): (q: Parser)
    requires |p.stack| > 0
    ensures |q.stack| == |p.stack|
    ensures q.stack[..|q.stack| - 1] == p.stack[..|p.stack| - 1]
    ensures Current(q) == AddChild(Current(p), child)
    ensures q.template == p.template && q.index == p.index
    ensures q.metaTags == p.metaTags && q.errors == p.errors
  {
    p.(stack := p.stack[..|p.stack| - 1] + [AddChild(Current(p), child)])
  }

  /** `error(code, message, position)`: record a diagnostic and carry on. */
  function Report(p: Parser, kind: ErrorKind, position: Option<nat>): (q: Parser)
    ensures q.errors == p.errors + [Diagnostic(kind, position)]
    ensures q.(errors := p.errors) == p
  {
    p.(errors := p.errors + [Diagnostic(kind, position)])
  }
}

=== FILE: tag.dfy ===
/** The tag state: the meta-tag table, `parent_is_head`, and the two
    branches of `tag` that precede its unwritten remainder, namely the comment
    step and the closing check for meta tags. */
module Tag {
  import opened Wrappers
  import opened Text
  import opened Ast
  import opened ParserState

  /** `META_TAGS`: each meta-tag name and the node type it stands for. */
  const MetaTags: map<string, string> := map[
    "svelte:head" := "Head",
    "svelte:options" := "Options",
    "svelte:window" := "Window",
    "svelte:body" := "Body"
  ]

  /** The slug used in messages: the node type, lower-cased. */
  function Slug(name: string): string
    requires name in MetaTags
  {
    AsciiLower(MetaTags[name])
  }

  /** The meta tags that must not have content. */
  predicate MustBeEmpty(name: string) {
    name == "svelte:window" || name == "svelte:body"
  }

  /** Every slug is the meta-tag name with its "svelte:" namespace removed. */
  lemma SlugIsUnprefixedName(name: string)
    requires name in MetaTags
    ensures |name| > 7 && name[..7] == "svelte:" && Slug(name) == name[7..]
  {
    if name == "svelte:head" {
      SlugCase(name, "Head", "head");
    } else if name == "svelte:options" {
      SlugCase(name, "Options", "options");
    } else if name == "svelte:window" {
      SlugCase(name, "Window", "window");
    } else {
      SlugCase(name, "Body", "body");
    }
  }

  lemma SlugCase(name: string, nodeType: string, slug: string)
    requires name in MetaTags && MetaTags[name] == nodeType && name == "svelte:" + slug
    requires |nodeType| == |slug| > 0 && nodeType[1..] == slug[1..]
    requires 'A' <= nodeType[0] <= 'Z' && slug[0] == (nodeType[0] as int + 32) as char
    ensures |name| > 7 && name[..7] == "svelte:" && Slug(name) == name[7..]
  {
    var r := AsciiLower(nodeType);
    assert forall k :: 0 <= k < |slug| ==> r[k] == slug[k];
  }

  predicate IsHead(n: TemplateNode) {
    TypeOf(n) == "Head"
  }

  /** An element or a component: a node that hides any enclosing head. */
  predicate IsBarrier(n: TemplateNode) {
    TypeOf(n) == "Element" || TypeOf(n) == "InlineComponent"
  }

  /** No barrier sits above position `i` of the stack. */
  predicate NoBarrierAbove(stack: seq<TemplateNode>, i: nat) {
    forall j :: i < j < |stack| ==> !IsBarrier(stack[j])
  }

  /** `parent_is_head`: scan the stack from the top; a head answers yes, an
      element or component answers no, and running out answers no. */
  method ParentIsHead(stack: seq<TemplateNode>) returns (r: bool)
    ensures r <==> exists i :: 0 <= i < |stack| && IsHead(stack[i]) && NoBarrierAbove(stack, i)
  {
    var i := |stack|;
    while i > 0
      invariant 0 <= i <= |stack|
      invariant forall j :: i <= j < |stack| ==> !IsHead(stack[j]) && !IsBarrier(stack[j])
    {
      i := i - 1;
      if IsHead(stack[i]) {
        return true;
      }
      if IsBarrier(stack[i]) {
        // The barrier at `i` hides every head below it.
        assert forall k :: 0 <= k < i ==> !NoBarrierAbove(stack, k);
        return false;
      }
    }
    return false;
  }

  /** How a call of `tag` ends: a fatal error, a return to the dispatcher, or
      arrival at the unwritten part of the state with the tag's start, whether
      it is a closing tag, and its name. */
  datatype TagResult =
    | Aborted(diagnostic: Diagnostic)
    | Returned(parser: Parser, signal: StateReturn)
    | Pending(parser: Parser, start: nat, isClosing: bool, name: string)

  /** The comment step, entered once `!--` has been eaten: read up to `-->`,
      require it, and append a comment leaf to the current node. It aborts
      exactly when no `-->` follows the cursor. On success only the current
      node changes, by one comment child, and no diagnostic is recorded. */
  function CommentStep(p: Parser, start: nat, extractIgnore: string -> seq<string>): (r: TagResult)
    requires Valid(p)
    ensures !r.Pending?
    ensures r.Aborted? <==>
              forall j :: p.index <= j <= |p.template| ==> !StartsWith(p.template[j..], "-->")
    ensures r.Aborted? ==> r.diagnostic == Diagnostic(UnclosedComment, Some(|p.template|))
    ensures r.Returned? ==>
              && var q := r.parser;
              && r.signal == NoNextState
              && q.template == p.template && p.index + 3 <= q.index <= |p.template|
              && StartsWith(p.template[q.index - 3..], "-->")
              && q.errors == p.errors && q.metaTags == p.metaTags
              && |q.stack| == |p.stack|
              && q.stack[..|q.stack| - 1] == p.stack[..|p.stack| - 1]
              && |Children(Current(q))| == |Children(Current(p))| + 1
              && Children(Current(q))[|Children(Current(p))|].Comment?
              && Current(q) == AddChild(Current(p), Children(Current(q))[|Children(Current(p))|])
  {
    var (data, p1) := ReadUntil(p, "-->");
    var (closed, p2) := Eat(p1, "-->");
    if !closed then
      assert !StartsWith(p.template[p1.index..], "-->");
      Aborted(Diagnostic(UnclosedComment, Some(p1.index)))
    else
      var node := Comment(BaseNode(Some(start), Some(p2.index), "Comment", [], false, false),
                          data, extractIgnore(data));
      assert StartsWith(p.template[p1.index..], "-->") && p2.index - 3 == p1.index;
      Returned(AppendToCurrent(p2, node), NoNextState)
  }

  /** The meta-tag branch of `tag`. Only a closing meta tag is checked. For
      `svelte:window` and `svelte:body` with content, only the content error
      is recorded. Otherwise a repeat is reported as a duplicate, then
      anything but the root on the stack as a misplacement, and the name is
      remembered whether or not an error was recorded. */
  function MetaClose(p: Parser, start: nat, isClosing: bool, name: string): (q: Parser)
    requires |p.stack| > 0
    ensures q.template == p.template && q.index == p.index && q.stack == p.stack
    ensures !(isClosing && name in MetaTags) ==> q == p
    ensures isClosing && MustBeEmpty(name) && |Children(Current(p))| > 0 ==>
              && q.metaTags == p.metaTags
              && q.errors == p.errors +
                   [Diagnostic(InvalidElementContent(Slug(name), name),
                               Children(Current(p))[0].base.start)]
    ensures isClosing && name in MetaTags && !(MustBeEmpty(name) && |Children(Current(p))| > 0) ==>
              && q.metaTags == p.metaTags + {name}
              && q.errors == p.errors
                   + (if name in p.metaTags
                      then [Diagnostic(DuplicateElement(Slug(name), name), Some(start))] else [])
                   + (if |p.stack| > 1
                      then [Diagnostic(InvalidElementPlacement(Slug(name), name), Some(start))] else [])
  {
    if name in MetaTags && isClosing then
      var slug := Slug(name);
      if MustBeEmpty(name) && |Children(Current(p))| > 0 then
        Report(p, InvalidElementContent(slug, name), Children(Current(p))[0].base.start)
      else
        var p1 := if name in p.metaTags then Report(p, DuplicateElement(slug, name), Some(start)) else p;
        var p2 := if |p.stack| > 1 then Report(p1, InvalidElementPlacement(slug, name), Some(start)) else p1;
        p2.(metaTags := p2.metaTags + {name})
    else
      p
  }

  /** `tag` up to the point where the source stops. `read_tag_name` is not
      written yet, so the name reader is a parameter: given the source and
      the cursor it yields the name and the cursor after it. The ignore
      directive extractor is a parameter too. A comment opener leads to an
      abort or a return; anything else reaches the unwritten remainder with
      the stack as it was. */
  function TagStep(p: Parser, extractIgnore: string -> seq<string>,
                   readTagName: (string, nat) -> (string, nat)): (r: TagResult)
    requires Valid(p)
    ensures r.Pending? <==> !OpensComment(p)
    ensures r.Aborted? ==> r.diagnostic == Diagnostic(UnclosedComment, Some(|p.template|))
    ensures r.Returned? ==>
              && r.signal == NoNextState
              && |r.parser.stack| == |p.stack|
              && r.parser.errors == p.errors && r.parser.metaTags == p.metaTags
    ensures r.Pending? ==>
              && r.start == p.index + 1
              && r.parser.stack == p.stack
              && (r.isClosing <==> p.index < |p.template| && p.template[p.index] == '/')
              && r.name == readTagName(p.template, p.index + (if r.isClosing then 1 else 0)).0
    ensures r.Pending? ==>
              r.parser == MetaClose(p.(index := readTagName(p.template, p.index + (if r.isClosing then 1 else 0)).1),
                                    r.start, r.isClosing, r.name)
  {
    var start := p.index + 1;
    var (isComment, p1) := Eat(p, "!--");
    if isComment then
      CommentStep(p1, start, extractIgnore)
    else
      var (isClosing, p2) := Eat(p1, "/");
      assert isClosing <==> p.index < |p.template| && p.template[p.index] == '/' by {
        if p.index < |p.template| {
          assert p.template[p.index..p.index + 1] == [p.template[p.index]];
        }
      }
      assert p2 == p.(index := p.index + (if isClosing then 1 else 0));
      var (name, after) := readTagName(p2.template, p2.index);
      var p3 := p.(index := after);
      Pending(MetaClose(p3, start, isClosing, name), start, isClosing, name)
  }

  /** The first `-->` after the `!--` at the cursor is at position `k`. */
  predicate FirstTerminatorAt(p: Parser, k: nat)
    requires p.index <= |p.template|
  {
    && p.index + 3 <= k <= |p.template|
    && StartsWith(p.template[k..], "-->")
    && forall j :: p.index + 3 <= j < k ==> !StartsWith(p.template[j..], "-->")
  }

  predicate OpensComment(p: Parser)
    requires p.index <= |p.template|
  {
    p.index + 3 <= |p.template| && p.template[p.index..p.index + 3] == "!--"
  }

  /** A terminated comment appends exactly one comment leaf, holding the text
      up to the first `-->`, to the current node, and moves the cursor past
      that `-->`; nothing else changes and the dispatcher gets no explicit
      next state. */
  lemma CommentAppendsOneLeaf(p: Parser, extractIgnore: string -> seq<string>,
                              readTagName: (string, nat) -> (string, nat), k: nat)
    requires Valid(p) && OpensComment(p) && FirstTerminatorAt(p, k)
    ensures var r := TagStep(p, extractIgnore, readTagName);
      && var data := p.template[p.index + 3..k];
      && var leaf := Comment(BaseNode(Some(p.index + 1), Some(k + 3), "Comment", [], false, false),
                             data, extractIgnore(data));
      && r == Returned(AppendToCurrent(p.(index := k + 3), leaf), NoNextState)
      && var q := r.parser;
      && q.template == p.template && q.index == k + 3
      && q.metaTags == p.metaTags && q.errors == p.errors
      && |q.stack| == |p.stack|
      && q.stack[..|q.stack| - 1] == p.stack[..|p.stack| - 1]
      && Current(q) == AddChild(Current(p), leaf)
      && Children(Current(q)) == Children(Current(p)) + [leaf]
  {
    var p1 := p.(index := p.index + 3);
    assert Eat(p, "!--") == (true, p1);
    assert TagStep(p, extractIgnore, readTagName) == CommentStep(p1, p.index + 1, extractIgnore);
    CommentStepAppends(p1, p.index + 1, extractIgnore, k);
  }

  lemma CommentStepAppends(p: Parser, start: nat, extractIgnore: string -> seq<string>, k: nat)
    requires Valid(p) && p.index <= k <= |p.template| && StartsWith(p.template[k..], "-->")
    requires forall j :: p.index <= j < k ==> !StartsWith(p.template[j..], "-->")
    ensures var data := p.template[p.index..k];
      CommentStep(p, start, extractIgnore)
        == Returned(AppendToCurrent(p.(index := k + 3),
                                    Comment(BaseNode(Some(start), Some(k + 3), "Comment", [], false, false),
                                            data, extractIgnore(data))),
                    NoNextState)
  {
    var p2 := p.(index := k);
    ReadUntilStopsAt(p, "-->", k);
    assert Eat(p2, "-->") == (true, p2.(index := k + 3));
  }

  /** `read_until` stops at the first occurrence of its pattern. */
  lemma ReadUntilStopsAt(p: Parser, pat: string, k: nat)
    requires p.index <= k <= |p.template| && |pat| > 0 && StartsWith(p.template[k..], pat)
    requires forall j :: p.index <= j < k ==> !StartsWith(p.template[j..], pat)
    ensures ReadUntil(p, pat) == (p.template[p.index..k], p.(index := k))
  {
  }

  /** An opened comment with no `-->` after it aborts with an unclosed-comment
      error at the end of the input; no comment is appended. */
  lemma UnclosedCommentAborts(p: Parser, extractIgnore: string -> seq<string>,
                              readTagName: (string, nat) -> (string, nat))
    requires Valid(p) && OpensComment(p)
    requires forall j :: p.index + 3 <= j <= |p.template| ==> !StartsWith(p.template[j..], "-->")
    ensures TagStep(p, extractIgnore, readTagName)
              == Aborted(Diagnostic(UnclosedComment, Some(|p.template|)))
  {
  }

  /** Anything but a comment opener reaches the unwritten remainder of the
      state, with the start offset one past the cursor and the closing flag
      set exactly when a `/` follows the cursor; the stack is untouched. */
  lemma OtherTagsReachRemainder(p: Parser, extractIgnore: string -> seq<string>,
                                readTagName: (string, nat) -> (string, nat))
    requires Valid(p) && !OpensComment(p)
    ensures var r := TagStep(p, extractIgnore, readTagName);
      && r.Pending?
      && r.start == p.index + 1
      && (r.isClosing <==> p.index < |p.template| && p.template[p.index] == '/')
      && r.parser.stack == p.stack && r.parser.template == p.template
  {
  }

  /** One call of the tag state, whatever its outcome short of aborting,
      keeps the stack's shape (same depth, same nodes below the top, same
      kind of top node), never forgets a diagnostic or a seen meta tag, and
      adds at most two diagnostics. */
  lemma TagStepKeepsParserShape(p: Parser, extractIgnore: string -> seq<string>,
                                readTagName: (string, nat) -> (string, nat))
    requires Valid(p)
    ensures var r := TagStep(p, extractIgnore, readTagName);
      !r.Aborted? ==>
        && var q := r.parser;
        && q.template == p.template
        && |q.stack| == |p.stack|
        && q.stack[..|q.stack| - 1] == p.stack[..|p.stack| - 1]
        && TypeOf(Current(q)) == TypeOf(Current(p))
        && p.metaTags <= q.metaTags
        && |p.errors| <= |q.errors| <= |p.errors| + 2
        && q.errors[..|p.errors|] == p.errors
  {
    if OpensComment(p) {
      CommentBranchKeepsShape(p, extractIgnore, readTagName);
    } else {
      MetaBranchKeepsShape(p, extractIgnore, readTagName);
    }
  }

  /** The comment branch only adds a child to the top node. */
  lemma CommentBranchKeepsShape(p: Parser, extractIgnore: string -> seq<string>,
                                readTagName: (string, nat) -> (string, nat))
    requires Valid(p) && OpensComment(p)
    ensures var r := TagStep(p, extractIgnore, readTagName);
      !r.Aborted? ==>
        && var q := r.parser;
        && q.template == p.template
        && |q.stack| == |p.stack|
        && q.stack[..|q.stack| - 1] == p.stack[..|p.stack| - 1]
        && TypeOf(Current(q)) == TypeOf(Current(p))
        && p.metaTags <= q.metaTags
        && |p.errors| <= |q.errors| <= |p.errors| + 2
        && q.errors[..|p.errors|] == p.errors
  {
    var p1 := p.(index := p.index + 3);
    assert Eat(p, "!--") == (true, p1);
    var r := TagStep(p, extractIgnore, readTagName);
    assert r == CommentStep(p1, p.index + 1, extractIgnore);
    CommentStepKeepsShape(p1, p.index + 1, extractIgnore);
    if r.Returned? {
      assert r.parser.errors[..|p.errors|] == p.errors;
    }
  }

  /** The meta-tag branch runs the check on the parser after the name. */
  lemma MetaBranchKeepsShape(p: Parser, extractIgnore: string -> seq<string>,
                             readTagName: (string, nat) -> (string, nat))
    requires Valid(p) && !OpensComment(p)
    ensures var r := TagStep(p, extractIgnore, readTagName);
      !r.Aborted? ==>
        && var q := r.parser;
        && q.template == p.template
        && |q.stack| == |p.stack|
        && q.stack[..|q.stack| - 1] == p.stack[..|p.stack| - 1]
        && TypeOf(Current(q)) == TypeOf(Current(p))
        && p.metaTags <= q.metaTags
        && |p.errors| <= |q.errors| <= |p.errors| + 2
        && q.errors[..|p.errors|] == p.errors
  {
    var r := TagStep(p, extractIgnore, readTagName);
    var after := readTagName(p.template, p.index + (if r.isClosing then 1 else 0)).1;
    MetaCloseKeepsShape(p.(index := after), r.start, r.isClosing, r.name);
  }

  /** A returning comment step keeps the stack's shape and the top node's
      kind, and leaves the diagnostics and seen names alone. */
  lemma CommentStepKeepsShape(p: Parser, start: nat, extractIgnore: string -> seq<string>)
    requires Valid(p)
    ensures var r := CommentStep(p, start, extractIgnore);
      r.Returned? ==>
        && var q := r.parser;
        && q.template == p.template
        && |q.stack| == |p.stack|
        && q.stack[..|q.stack| - 1] == p.stack[..|p.stack| - 1]
        && TypeOf(Current(q)) == TypeOf(Current(p))
        && q.metaTags == p.metaTags && q.errors == p.errors
  {
  }

  /** The meta-tag check never touches the template, the cursor or the stack,
      never forgets a diagnostic or a seen name, and adds at most two
      diagnostics. */
  lemma MetaCloseKeepsShape(p: Parser, start: nat, isClosing: bool, name: string)
    requires |p.stack| > 0
    ensures var q := MetaClose(p, start, isClosing, name);
      && q.template == p.template && q.index == p.index && q.stack == p.stack
      && p.metaTags <= q.metaTags
      && |p.errors| <= |q.errors| <= |p.errors| + 2
      && q.errors[..|p.errors|] == p.errors
  {
  }

  /** As written, through the whole tag state: `</svelte:head>` closing a
      head element that sits directly under the root records a placement
      error at the closing tag's start. */
  lemma ClosingTopLevelHeadIsReportedMisplaced(p: Parser, extractIgnore: string -> seq<string>,
                                               readTagName: (string, nat) -> (string, nat))
    requires Valid(p) && |p.stack| == 2 && TypeOf(Current(p)) == "Head"
    requires p.index < |p.template| && p.template[p.index] == '/'
    requires readTagName(p.template, p.index + 1).0 == "svelte:head"
    ensures var r := TagStep(p, extractIgnore, readTagName);
      && r.Pending? && r.isClosing && r.name == "svelte:head"
      && Diagnostic(InvalidElementPlacement("head", "svelte:head"), Some(p.index + 1)) in r.parser.errors
  {
    assert !OpensComment(p);
    assert Slug("svelte:head") == "head";
  }

  /** Closing the same meta tag twice with only the root on the stack: the
      first close is clean and remembers the name, the second records exactly
      one duplicate error at its own start. A real parse never closes a meta
      tag with only the root open; this isolates the duplicate test of lines
      113-116 from the placement test, and says nothing about a top-level
      pair written twice, which the as-written check reports as misplaced. */
  lemma SecondCloseIsDuplicate(p: Parser, start1: nat, start2: nat, name: string)
    requires |p.stack| == 1 && name in MetaTags && name !in p.metaTags
    requires !(MustBeEmpty(name) && |Children(Current(p))| > 0)
    ensures var q1 := MetaClose(p, start1, true, name);
      && q1.errors == p.errors && name in q1.metaTags
      && MetaClose(q1, start2, true, name).errors
           == p.errors + [Diagnostic(DuplicateElement(Slug(name), name), Some(start2))]
  {
  }

  /** As written, placement is tested at the closing tag. A meta element
      that is a direct child of the root is itself still open when its
      closing tag is read, so the stack holds the root and the element, and
      its close is reported as misplaced. */
  lemma TopLevelCloseIsReportedMisplaced(p: Parser, start: nat, name: string)
    requires |p.stack| == 2 && name in MetaTags && TypeOf(Current(p)) == MetaTags[name]
    requires |Children(Current(p))| == 0
    ensures Diagnostic(InvalidElementPlacement(Slug(name), name), Some(start))
              in MetaClose(p, start, true, name).errors
  {
    var q := MetaClose(p, start, true, name);
    assert q.errors[|q.errors| - 1] == Diagnostic(InvalidElementPlacement(Slug(name), name), Some(start));
  }

  /** The meta-tag check with the branches the other way round: the content
      of `svelte:window` and `svelte:body` is checked on the closing tag,
      while duplicates and placement are checked on the opening tag, before
      the element is pushed, and only an opening tag marks the name seen. */
  function MetaCheckCorrected(p: Parser, start: nat, isClosing: bool, name: string): (q: Parser)
    requires |p.stack| > 0
    ensures q.template == p.template && q.index == p.index && q.stack == p.stack
    ensures name !in MetaTags ==> q == p
    ensures name in MetaTags && isClosing ==>
              && q.metaTags == p.metaTags
              && q.errors == p.errors +
                   (if MustBeEmpty(name) && |Children(Current(p))| > 0
                    then [Diagnostic(InvalidElementContent(Slug(name), name),
                                     Children(Current(p))[0].base.start)]
                    else [])
    ensures name in MetaTags && !isClosing ==>
              && q.metaTags == p.metaTags + {name}
              && q.errors == p.errors
                   + (if name in p.metaTags
                      then [Diagnostic(DuplicateElement(Slug(name), name), Some(start))] else [])
                   + (if |p.stack| > 1
                      then [Diagnostic(InvalidElementPlacement(Slug(name), name), Some(start))] else [])
  {
    if name in MetaTags then
      var slug := Slug(name);
      if isClosing then
        if MustBeEmpty(name) && |Children(Current(p))| > 0 then
          Report(p, InvalidElementContent(slug, name), Children(Current(p))[0].base.start)
        else
          p
      else
        var p1 := if name in p.metaTags then Report(p, DuplicateElement(slug, name), Some(start)) else p;
        var p2 := if |p.stack| > 1 then Report(p1, InvalidElementPlacement(slug, name), Some(start)) else p1;
        p2.(metaTags := p2.metaTags + {name})
    else
      p
  }

  /** With the corrected check, a first meta element directly under the root,
      opened, pushed and closed with no content, records no error at all;
      a second one opened at the top level records exactly one duplicate. */
  lemma CorrectedTopLevelMetaTagIsAccepted(p: Parser, start1: nat, start2: nat, start3: nat,
                                           name: string, element: TemplateNode)
    requires |p.stack| == 1 && name in MetaTags && name !in p.metaTags
    requires |Children(element)| == 0
    ensures var afterOpen := MetaCheckCorrected(p, start1, false, name);
      && var pushed := afterOpen.(stack := afterOpen.stack + [element]);
      && var closed := MetaCheckCorrected(pushed, start2, true, name);
      && closed.errors == p.errors && name in closed.metaTags
      && MetaCheckCorrected(closed.(stack := p.stack), start3, false, name).errors
           == p.errors + [Diagnostic(DuplicateElement(Slug(name), name), Some(start3))]
  {
    var afterOpen := MetaCheckCorrected(p, start1, false, name);
    var pushed := afterOpen.(stack := afterOpen.stack + [element]);
    assert Current(pushed) == element;
  }

  /** With the corrected check a self-closing meta tag nested below the root
      is reported as misplaced, where the check as written, which never sees
      a closing tag for it, records nothing. */
  lemma CorrectedCheckSeesSelfClosingTags(p: Parser, start: nat, name: string)
    requires |p.stack| > 1 && name in MetaTags
    ensures Diagnostic(InvalidElementPlacement(Slug(name), name), Some(start))
              in MetaCheckCorrected(p, start, false, name).errors
    ensures MetaClose(p, start, false, name) == p
  {
    var q := MetaCheckCorrected(p, start, false, name);
    assert q.errors[|q.errors| - 1] == Diagnostic(InvalidElementPlacement(Slug(name), name), Some(start));
  }
}

=== FILE: tag_name.dfy ===
/** The tag-name pattern `^!?[a-zA-Z]{1,}:?[a-zA-Z0-9-]*` (`VALID_TAG_NAME`),
    as a declarative language and as a greedy left-to-right scanner. */
module TagName {
  import opened Wrappers
  import opened Text

  /** `t` splits as `!?` on [0, b), `[a-zA-Z]{1,}` on [b, l), `:?` on [l, c)
      and `[a-zA-Z0-9-]*` on [c, |t|). */
  predicate Split(t: string, b: nat, l: nat, c: nat) {
    && b <= 1 && b < l <= c <= l + 1 && c <= |t|
    && (b == 1 ==> t[0] == '!')
    && (forall k :: b <= k < l ==> IsAsciiLetter(t[k]))
    && (c == l + 1 ==> t[l] == ':')
    && (forall k :: c <= k < |t| ==> IsNameChar(t[k]))
  }

  /** The whole of `t` is a tag name. */
  ghost predicate InLanguage(t: string) {
    exists b: nat, l: nat, c: nat :: Split(t, b, l, c)
  }

  /** What `VALID_TAG_NAME.is_match` tests: the pattern is anchored at the
      start only, so some prefix of `s` must be a tag name. */
  ghost predicate IsMatch(s: string) {
    exists n: nat :: n <= |s| && InLanguage(s[..n])
  }

  /** The two ways a tag name can begin. */
  predicate StartsTagName(s: string) {
    || (|s| > 0 && IsAsciiLetter(s[0]))
    || (|s| > 1 && s[0] == '!' && IsAsciiLetter(s[1]))
  }

  /** The length of the greedy match of the pattern at the start of `s`, or
      `None` when it does not match. */
  function MatchLength(s: string): (r: Option<nat>)
    ensures r.Some? <==> StartsTagName(s)
    ensures r.Some? ==> 0 < r.value <= |s| && InLanguage(s[..r.value])
    ensures r.Some? && r.value < |s| ==> !IsNameChar(s[r.value])
  {
    var b := if |s| > 0 && s[0] == '!' then 1 else 0;
    var l := SkipWhile(s, b, IsAsciiLetter);
    if l == b then None
    else
      var c := if l < |s| && s[l] == ':' then l + 1 else l;
      var n := SkipWhile(s, c, IsNameChar);
      assert Split(s[..n], b, l, c);
      assert c == l + 1 ==> s[..n][l] == ':';
      Some(n)
  }

  /** The greedy match is the longest prefix of `s` that is a tag name: every
      tag-name prefix makes the pattern match, and none is longer than the
      match. */
  lemma MatchLengthIsLongest(s: string, m: nat)
    requires m <= |s| && InLanguage(s[..m])
    ensures MatchLength(s).Some? && m <= MatchLength(s).value
  {
    // Any split of s[..m] starts its letters where the scanner does, ends
    // them no later, and every later character it covers is one the final
    // scan would also have taken.
  }

  /** `VALID_TAG_NAME.is_match(s)` holds exactly when `s` starts with an ASCII
      letter, or with `!` followed by an ASCII letter. */
  lemma IsMatchIffStartsTagName(s: string)
    ensures IsMatch(s) <==> StartsTagName(s)
  {
    if IsMatch(s) {
      var n: nat :| n <= |s| && InLanguage(s[..n]);
      MatchLengthIsLongest(s, n);
    }
    if StartsTagName(s) {
      var n := MatchLength(s).value;
      assert n <= |s| && InLanguage(s[..n]);
    }
  }

  /** A string that is entirely a tag name is matched in full. */
  lemma WholeNameMatchesInFull(t: string)
    requires InLanguage(t)
    ensures MatchLength(t) == Some(|t|)
  {
  }

  /** The names the parser's own tests expect `VALID_TAG_NAME` to accept are
      tag names from end to end, so (by `WholeNameMatchesInFull`) the pattern
      matches each of them in full. The namespaced samples come first. */
  lemma SampleNamesAreTagNames()
    ensures InLanguage("svelte:options")
    ensures InLanguage("svelte:component")
    ensures InLanguage("svelte:my-element")
  {
    assert Split("svelte:options", 0, 6, 7);
    assert Split("svelte:component", 0, 6, 7);
    assert Split("svelte:my-element", 0, 6, 7);
  }

  /** The dashed samples without a namespace. */
  lemma SampleDashedNamesAreTagNames()
    ensures InLanguage("my-element")
    ensures InLanguage("element-multiple-dashes")
  {
    assert Split("my-element", 0, 2, 2);
    assert Split("element-multiple-dashes", 0, 7, 7);
  }

  /** The samples with a leading `!`. */
  lemma SampleBangNamesAreTagNames()
    ensures InLanguage("!svelte:element")
    ensures InLanguage("!svelte:multiple-dashes-element")
  {
    assert Split("!svelte:element", 1, 7, 8);
    assert Split("!svelte:multiple-dashes-element", 1, 7, 8);
  }
}

=== FILE: text.dfy ===
/** Character classes and scanning primitives over `string` (a `seq<char>`
    of Unicode scalar values), shared by the regex recognisers and the
    parser cursor. */
module Text {

  /** `[a-zA-Z]`: ASCII letters only. */
  predicate IsAsciiLetter(c: char) {
    'a' <= c <= 'z' || 'A' <= c <= 'Z'
  }

  predicate IsAsciiDigit(c: char) {
    '0' <= c <= '9'
  }

  /** `[a-zA-Z0-9-]`: the characters allowed after the optional colon of a tag name. */
  predicate IsNameChar(c: char) {
    IsAsciiLetter(c) || IsAsciiDigit(c) || c == '-'
  }

  /** `\s` of the `regex` crate, which is Unicode-aware by default: the
      characters with the Unicode White_Space property. */
  predicate IsWhiteSpace(c: char) {
    || ('\U{0009}' <= c <= '\U{000D}')
    || c == ' '
    || c == '\U{0085}'
    || c == '\U{00A0}'
    || c == '\U{1680}'
    || ('\U{2000}' <= c <= '\U{200A}')
    || c == '\U{2028}'
    || c == '\U{2029}'
    || c == '\U{202F}'
    || c == '\U{205F}'
    || c == '\U{3000}'
  }

  /** Whether `s` begins with `lit`, compared one character at a time. */
  function StartsWith(s: string, lit: string): (b: bool)
    ensures b <==> |lit| <= |s| && s[..|lit|] == lit
    decreases |lit|
  {
    |lit| == 0 || (|s| > 0 && s[0] == lit[0] && StartsWith(s[1..], lit[1..]))
  }

  /** The end of the maximal run of characters satisfying `p` that starts at `i`. */
  function SkipWhile(s: string, i: nat, p: char -> bool): (j: nat)
    requires i <= |s|
    ensures i <= j <= |s|
    ensures forall k :: i <= k < j ==> p(s[k])
    ensures j == |s| || !p(s[j])
    decreases |s| - i
  {
    if i == |s| || !p(s[i]) then i else SkipWhile(s, i + 1, p)
  }

  /** The first position at or after `i` where `pat` occurs in `s`, or `|s|`
      when it occurs nowhere from `i` on (an unanchored regex search). */
  function FindFrom(s: string, i: nat, pat: string): (j: nat)
    requires i <= |s|
    requires |pat| > 0
    ensures i <= j <= |s|
    ensures forall k :: i <= k < j ==> !StartsWith(s[k..], pat)
    ensures j < |s| <==> StartsWith(s[j..], pat)
    decreases |s| - i
  {
    if i == |s| || StartsWith(s[i..], pat) then i else FindFrom(s, i + 1, pat)
  }

  function LowerChar(c: char): char {
    if 'A' <= c <= 'Z' then (c as int + 32) as char else c
  }

  /** ASCII lower-casing; the only strings lower-cased here are ASCII constants. */
  function AsciiLower(s: string): (r: string)
    ensures |r| == |s|
    ensures forall k :: 0 <= k < |s| ==> r[k] == LowerChar(s[k])
  {
    if |s| == 0 then [] else [LowerChar(s[0])] + AsciiLower(s[1..])
  }
}

=== FILE: wrappers.dfy ===
/** The optional value used wherever the parser reports "maybe nothing":
    a regex that may not match, a node offset that may be unset. */
module Wrappers {

  datatype Option<+T> = None | Some(value: T)
}
